=== FILE: README.md ===
# BTControlApp connection/command controller

BTControlApp is an Android app that drives an Arduino-based rover over a classic
Bluetooth serial (SPP/RFCOMM) link. Its single activity, `MainActivity`, holds a
small sequential controller under the Bluetooth and UI code. That controller is
a set of fields: the socket, the output and input streams, the reader thread,
the flags `isReading`, `isConnected` and `isRunning`, and whether the five
control buttons are enabled. The user's clicks and the activity's destruction
change these fields. The controller writes newline-terminated ASCII commands to
the output stream and appends messages to a debug text view.

This project models that controller as pure Dafny functions over an immutable
state and proves properties of them. Every outcome the activity gets from
Android becomes an input:

- whether the permissions are granted;
- whether there is an adapter and whether it is enabled;
- the bonded devices, in iteration order;
- which step of opening the socket throws, if any;
- whether a `write` throws;
- whether each `close` throws.

What the activity produces is kept in `Output`: every byte string passed to
`write`, every resource `close` was called on, and the text of the debug view.

Modules:

- `Wire`: the command vocabulary, the framing `"$command\n"` as bytes, and a
  parser for frames that serves as framing's inverse.
- `DebugLog`: `addDebugMessage`'s text update, and the line structure of the
  resulting view.
- `Pairing`: Kotlin's `String.contains` and the first-match device search.
- `Controller`: the fields and one transition function per event.
- `Session`: event traces, the invariant of every reachable state, and the
  teardown and scenario properties.

Behaviours the model keeps exactly as the code has them:

- A disconnect never resets `isRunning`, so a reconnected link starts in the
  running mode it was left in. That includes a START whose write threw.
- When the output-stream `close` throws, the input-stream and socket closes are
  skipped. The fields are still cleared and the controls disabled.
- `sendCommand` without an output stream writes nothing but still logs the
  command as sent. No reachable state does this (`Session.Reachable`), because a
  connected activity always has its output stream.
- When a permission is missing, the click only raises the system prompt. The
  activity has no permission-result callback, so nothing connects until the
  next click.

Three facts about the code shape the model:

- The link state is the set of fields; there is no link-state enumeration.
- The peer is chosen by a substring match on the bonded devices' names.
- Only the first throwing close is reported, because the three closes share
  one `try`.

## Model

| member | source | states |
|---|---|---|
| `Wire.Frame` | app/src/main/java/com/example/btcontrolapp/MainActivity.kt:278 | the bytes of one command are its token's characters followed by one line feed 0x0A |
| `Wire.FrameHasOneDelimiter` | app/src/main/java/com/example/btcontrolapp/MainActivity.kt:278 | a frame holds exactly one line feed, as its last byte |
| `Wire.FrameText` | app/src/main/java/com/example/btcontrolapp/MainActivity.kt:278 | decoded as text, a frame is the token followed by a single newline |
| `Wire.FrameRoundTrip` | app/src/main/java/com/example/btcontrolapp/MainActivity.kt:278 | parsing a frame gives back its command, and only the frame of a command parses as that command |
| `Wire.TokenRoundTrip` | app/src/main/java/com/example/btcontrolapp/MainActivity.kt:100-122 | the six tokens are distinct and the reverse lookup inverts them |
| `Wire.AsciiRoundTrip` | app/src/main/java/com/example/btcontrolapp/MainActivity.kt:278 | on ASCII text, `toByteArray` encoding and decoding invert each other |
| `Wire.StartFrameBytes` | app/src/main/java/com/example/btcontrolapp/MainActivity.kt:278 | START goes on the wire as 0x53 0x54 0x41 0x52 0x54 0x0A |
| `DebugLog.Append` | app/src/main/java/com/example/btcontrolapp/MainActivity.kt:292 | an empty view becomes the message itself; otherwise the old text is kept as a prefix, followed by one newline and then the message |
| `DebugLog.RenderPrefix` | app/src/main/java/com/example/btcontrolapp/MainActivity.kt:288-295 | adding more messages never changes the text already shown |
| `DebugLog.RenderLines` | app/src/main/java/com/example/btcontrolapp/MainActivity.kt:288-295 | when no message holds a newline and the first is non-empty, the view's lines are the messages, in order |
| `Pairing.Contains` | app/src/main/java/com/example/btcontrolapp/MainActivity.kt:177 | a name that starts with the mark contains it, and no name shorter than the mark does |
| `Pairing.ContainsIff` | app/src/main/java/com/example/btcontrolapp/MainActivity.kt:177 | the name test holds exactly when the mark occurs at some position of the name |
| `Pairing.FirstMatchFrom` | app/src/main/java/com/example/btcontrolapp/MainActivity.kt:176-177 | the search from a position finds the first matching device after it, or reports that no device at all matches |
| `Pairing.FirstMatch` | app/src/main/java/com/example/btcontrolapp/MainActivity.kt:176-182 | `find` gives the position of the first bonded device whose name contains the mark, or none exactly when no name does |
| `Pairing.FirstMatchUnique` | app/src/main/java/com/example/btcontrolapp/MainActivity.kt:176-177 | any position that is the first match is the one `find` returns |
| `Controller.Log` | app/src/main/java/com/example/btcontrolapp/MainActivity.kt:288-295 | logging appends to the view's text and changes no field and no other output |
| `Controller.StartReading` | app/src/main/java/com/example/btcontrolapp/MainActivity.kt:313-335 | the reading flag and the reader thread are set; no other field changes |
| `Controller.StopReading` | app/src/main/java/com/example/btcontrolapp/MainActivity.kt:337-341 | the reading flag is lowered and the thread reference dropped; no other field changes |
| `Controller.CloseInOrder` | app/src/main/java/com/example/btcontrolapp/MainActivity.kt:244-252 | the closes made are a prefix of the open resources, in order; every close before the last returned; the sequence ends early exactly at a throwing close, whose message is reported |
| `Controller.ReportCloseError` | app/src/main/java/com/example/btcontrolapp/MainActivity.kt:251-252 | the earlier text is kept as a prefix; the text changes exactly when a close threw, and then the close error line (prefix and exception message) follows the earlier text after one newline |
| `Controller.Disconnect` | app/src/main/java/com/example/btcontrolapp/MainActivity.kt:240-272 | whatever the closes do, all fields are cleared except `isRunning`, which is kept; nothing is written; the open resources are closed output, input, socket, up to the first throw; that close's error is logged if one threw, and the disconnect notice is logged last |
| `Controller.SendCommand` | app/src/main/java/com/example/btcontrolapp/MainActivity.kt:275-285 | with a stream, exactly one write of the command's frame; a write that returns changes no field and logs the command; a write that throws logs its error, closes the open resources up to the first throwing close, and leaves everything released; without a stream, no write but the command is still logged |
| `Controller.MoveCommand` | app/src/main/java/com/example/btcontrolapp/MainActivity.kt:105-123 | each movement button sends a movement command, never START or STOP |
| `Controller.MoveClick` | app/src/main/java/com/example/btcontrolapp/MainActivity.kt:105-123 | unless connected and running, nothing changes; otherwise one write of the button's command, and full release if that write throws |
| `Controller.StartStopClick` | app/src/main/java/com/example/btcontrolapp/MainActivity.kt:96-101 | when disconnected, nothing changes; when connected, `isRunning` is negated and START (now running) or STOP (now stopped) is written |
| `Controller.Precheck` | app/src/main/java/com/example/btcontrolapp/MainActivity.kt:156-182 | the early exits, in order: no adapter, adapter off, no bonded devices, no name with the mark; otherwise the first bonded device whose name contains the mark |
| `Controller.PartlyOpened` | app/src/main/java/com/example/btcontrolapp/MainActivity.kt:184-194 | before a throwing step, the socket is held once it was created and the output stream once it was taken; no other field changes |
| `Controller.OpenLink` | app/src/main/java/com/example/btcontrolapp/MainActivity.kt:184-231 | a successful open holds the socket to the chosen device and both streams; it sets reading, connected and the controls, keeps `isRunning`, and writes and closes nothing |
| `Controller.AbortConnect` | app/src/main/java/com/example/btcontrolapp/MainActivity.kt:232-236 | a throwing open step logs its error, closes what was opened up to the first throwing close, and ends fully released with `isRunning` kept and nothing written |
| `Controller.ConnectToBluetooth` | app/src/main/java/com/example/btcontrolapp/MainActivity.kt:154-237 | a failed check changes no field, closes nothing and logs its message; a successful open connects to the chosen device; a throwing step logs the connect error, closes what was opened up to the first throwing close, and ends disconnected; connecting never writes |
| `Controller.ConnectClick` | app/src/main/java/com/example/btcontrolapp/MainActivity.kt:85-93 | when connected, the click disconnects, closing the open resources in order up to the first throwing close; when disconnected and a permission is missing, nothing changes; when disconnected and permitted, a failed check changes no field and closes nothing, a successful open connects to the chosen device, and a throwing open step logs its error and ends released; it never writes and never changes `isRunning` |
| `Controller.Destroy` | app/src/main/java/com/example/btcontrolapp/MainActivity.kt:306-310 | destruction always ends fully released, whatever the state: it closes the open resources output, input, socket up to the first throwing close, logs that close's error if one threw and then the disconnect notice, and writes nothing |
| `Session.StepConsistent` | app/src/main/java/com/example/btcontrolapp/MainActivity.kt:184-272 | every event keeps socket, streams, reader, reading flag and controls present exactly when connected |
| `Session.StepWritesFrames` | app/src/main/java/com/example/btcontrolapp/MainActivity.kt:275-285 | an event writes nothing or exactly one frame of a command |
| `Session.StepLogGrows` | app/src/main/java/com/example/btcontrolapp/MainActivity.kt:288-295 | no event removes text from the debug view |
| `Session.RunInvariant` | app/src/main/java/com/example/btcontrolapp/MainActivity.kt:83-124 | any sequence of events keeps the state consistent and writes only whole frames; earlier writes, closes and log text stay as prefixes |
| `Session.Reachable` | app/src/main/java/com/example/btcontrolapp/MainActivity.kt:27-42 | every state reachable from creation is consistent and has written only frames |
| `Session.NoWriteWhileDisconnected` | app/src/main/java/com/example/btcontrolapp/MainActivity.kt:96-123 | while disconnected, no event writes anything |
| `Session.RunningChangesOnlyByStartStop` | app/src/main/java/com/example/btcontrolapp/MainActivity.kt:96-101 | `isRunning` changes exactly on a start/stop click while connected, so it survives disconnect and reconnect |
| `Session.ConnectedMoveWrites` | app/src/main/java/com/example/btcontrolapp/MainActivity.kt:105-123 | in a reachable state that is connected and running, a movement click writes exactly its command's frame; if the write returns, no field changes |
| `Session.WriteFailureDisconnects` | app/src/main/java/com/example/btcontrolapp/MainActivity.kt:280-284 | a throwing write on a connected link clears every field but `isRunning`: not connected, no socket or streams, not reading, controls disabled |
| `Session.DisconnectIdempotent` | app/src/main/java/com/example/btcontrolapp/MainActivity.kt:240-272 | a second disconnect keeps the fields, closes and writes nothing, and logs only the notice; the fields after a disconnect do not depend on the close outcomes |
| `Session.QuietCloseClosesAll` | app/src/main/java/com/example/btcontrolapp/MainActivity.kt:244-250 | when no close throws, every open resource is closed in order and only the notice is logged |
| `Session.OutputCloseThrowSkipsRest` | app/src/main/java/com/example/btcontrolapp/MainActivity.kt:244-271 | a throwing output-stream close is the only close made; its error is logged before the notice, and the fields are cleared |
| `Session.ConnectThrowClosesSocket` | app/src/main/java/com/example/btcontrolapp/MainActivity.kt:184-236 | from a released state, a throwing socket `connect()` closes exactly the socket it created whatever that close does; it logs the connect error, then the socket's close error if that close threw, then the notice, and clears the fields |
| `Session.ConnectChoosesFirstRover` | app/src/main/java/com/example/btcontrolapp/MainActivity.kt:176-229 | a permitted connect opens the link to the first bonded device whose name contains "MAVERA" |
| `Session.FailedPrecheckOnlyLogs` | app/src/main/java/com/example/btcontrolapp/MainActivity.kt:157-182 | a failed connect check leaves every field unchanged, closes nothing and logs only its message |
| `Session.RoverScenario` | app/src/main/java/com/example/btcontrolapp/MainActivity.kt:85-101 | connect to "MAVERA-01", START, STOP, then disconnect: exactly the START and STOP frames are written, and the link ends released and stopped |

## Left out

- The reader threads (lines 198-218 and 313-335) run concurrently with the UI thread. Only their effect on `isReading` and `readThread` is modelled. The received-data log lines and the interrupt at line 339 are not.
- Decoding received bytes into a String (lines 204 and 321) is platform charset decoding and is not modelled.
- The permission request (lines 127-150) is modelled only as a boolean input: granted, or nothing happens.
- The Android Bluetooth calls and the service UUID (line 54) are left out. Their results are the `Adapter`, `ConnectOutcome`, `IoOutcome` and `Closes` inputs.
- Button captions, auto-scroll, `runOnUiThread` and view lookup are UI glue. The controls are one shared enabled flag.
- `onCreate` and the layout file are not part of this model. The initial state assumes the five control buttons start disabled and the debug text starts empty.
- Line 65 assigns the default adapter to a non-null `lateinit` property. In Kotlin a null adapter would fail there, before the check at line 157. The model keeps the check as written, as the `Absent` adapter.
- A device whose name is null makes `contains` throw a NullPointerException that ends the activity. Device names are modelled as strings, so this case is not covered.
- An exception with a null message is logged as "null". The model takes the message as a string, so that case is the string "null".
- `sendCommand` accepts any string, but it is only called with the six tokens. It is modelled over those six commands, whose UTF-8 and ASCII encodings coincide.

=== FILE: controller.dfy ===
/**
  The main activity's connection/command controller as pure transitions.
  Every Bluetooth outcome the activity waits on (a stream close, a write, the
  socket connect) is a parameter; what the activity writes, closes and logs is
  accumulated in `Output`.
 */
module Controller {
  import opened Wrappers
  import opened Wire
  import DebugLog
  import opened Pairing

  /** How a stream or socket call returned: normally, or by throwing an `IOException`. */
  datatype IoOutcome = Done | Threw(message: string)

  /** What each `close()` would do if it were called during a disconnect. */
  datatype Closes = Closes(output: IoOutcome, input: IoOutcome, socket: IoOutcome)

  /** The three closeable resources, in the order the disconnect closes them. */
  datatype Endpoint = OutputEnd | InputEnd | SocketEnd

  /** The step of opening the link at which an `IOException` was thrown. */
  datatype ConnectStep = CreateSocket | OpenSocket | GetOutputStream | GetInputStream

  datatype ConnectOutcome = Opened | FailedAt(step: ConnectStep, message: string)

  /** The default Bluetooth adapter, if the device has one; bonded devices in iteration order. */
  datatype Adapter = Absent | Present(enabled: bool, bonded: seq<Device>)

  /** The movement buttons. */
  datatype MoveButton = ForwardButton | BackwardButton | LeftButton | RightButton

  /**
    The activity's fields: `socket` is the remote device of `bluetoothSocket`
    when that is non-null; `controlsEnabled` is the shared enabled state of the
    start/stop and four movement buttons.
   */
  datatype Flags = Flags(
    socket: Option<Device>,
    hasOutput: bool,
    hasInput: bool,
    hasReadThread: bool,
    isReading: bool,
    isConnected: bool,
    isRunning: bool,
    controlsEnabled: bool)

  /** Byte strings passed to `write`, resources `close` was called on, and the debug view's text. */
  datatype Output = Output(writes: seq<seq<byte>>, closes: seq<Endpoint>, log: string)

  datatype State = State(flags: Flags, out: Output)

  const NotSupportedMsg: string := "Bluetooth desteklenmiyor!"
  const NotEnabledMsg: string := "Bluetooth açık değil!"
  const NoBondedMsg: string := "Eşleşmiş cihaz bulunamadı!"
  const NoRoverMsg: string := "Arduino cihazı bulunamadı!"
  const ConnectedMsg: string := "Bluetooth bağlantısı başarılı!"
  const ConnectErrorPrefix: string := "Bağlantı hatası: "
  const CloseErrorPrefix: string := "Bağlantı kesme hatası: "
  const DisconnectedMsg: string := "Bluetooth bağlantısı kesildi!"
  const SentPrefix: string := "Gönderilen komut: "
  const SendErrorPrefix: string := "Komut gönderme hatası: "

  /** The activity after creation: nothing open, stopped, controls disabled, empty log. */
  const Initial: State :=
    State(Flags(None, false, false, false, false, false, false, false), Output([], [], ""))

  /** The fields after a disconnect: everything released, `isRunning` left as it was. */
  function Cleared(running: bool): (f: Flags)
  {
    Flags(None, false, false, false, false, false, running, false)
  }

  /** `addDebugMessage`: the message is appended to the view and nothing else changes. */
  function Log(s: State, message: string): (r: State)
    ensures r.flags == s.flags
    ensures r.out.writes == s.out.writes && r.out.closes == s.out.closes
    ensures s.out.log <= r.out.log
    ensures r.out.log == DebugLog.Append(s.out.log, message)
  {
    s.(out := s.out.(log := DebugLog.Append(s.out.log, message)))
  }

  /** `startReading`: the reader thread is created and the reading flag raised. */
  function StartReading(f: Flags): (r: Flags)
    ensures r.isReading && r.hasReadThread
    ensures r.(isReading := f.isReading, hasReadThread := f.hasReadThread) == f
  {
    f.(isReading := true, hasReadThread := true)
  }

  /** `stopReading`: the reading flag is lowered and the thread reference dropped. */
  function StopReading(f: Flags): (r: Flags)
    ensures !r.isReading && !r.hasReadThread
    ensures r.(isReading := f.isReading, hasReadThread := f.hasReadThread) == f
  {
    f.(isReading := false, hasReadThread := false)
  }

  /** The resources that are non-null, in close order. */
  function OpenEndpoints(f: Flags): seq<Endpoint>
  {
    (if f.hasOutput then [OutputEnd] else [])
    + (if f.hasInput then [InputEnd] else [])
    + (if f.socket.Some? then [SocketEnd] else [])
  }

  function CloseOutcome(c: Closes, e: Endpoint): IoOutcome
  {
    match e
    case OutputEnd => c.output
    case InputEnd => c.input
    case SocketEnd => c.socket
  }

  /**
    Closing `pending` one after another inside a single `try`: the calls made,
    and the message of the exception that ended the sequence early, if any.
   */
  function CloseInOrder(pending: seq<Endpoint>, c: Closes): (r: (seq<Endpoint>, Option<string>))
    ensures r.0 <= pending
    ensures r.1.None? ==> r.0 == pending
    ensures forall i :: 0 <= i < |r.0| - 1 ==> CloseOutcome(c, r.0[i]).Done?
    ensures r.1.None? ==> forall i :: 0 <= i < |r.0| ==> CloseOutcome(c, r.0[i]).Done?
    ensures r.1.Some? ==> |r.0| > 0 && CloseOutcome(c, r.0[|r.0| - 1]) == Threw(r.1.value)
    decreases |pending|
  {
    if |pending| == 0 then ([], None)
    else
      match CloseOutcome(c, pending[0])
      case Threw(m) => ([pending[0]], Some(m))
      case Done =>
        var rest := CloseInOrder(pending[1..], c);
        ([pending[0]] + rest.0, rest.1)
  }

  /** The view's text after the `catch` of a disconnect reported the close error, if any. */
  function ReportCloseError(text: string, thrown: Option<string>): (r: string)
    ensures text <= r
    ensures thrown.None? <==> r == text
    ensures thrown.Some? && text == [] ==> r == CloseErrorPrefix + thrown.value
    ensures thrown.Some? && text != [] ==>
      r[|text|] == DebugLog.Separator && r[|text| + 1..] == CloseErrorPrefix + thrown.value
  {
    if thrown.Some? then DebugLog.Append(text, CloseErrorPrefix + thrown.value) else text
  }

  /**
    `disconnectBluetooth`: stop reading, close what is open until a close
    throws, then, whatever happened, clear every field but `isRunning` and
    disable the controls.
   */
  function Disconnect(s: State, c: Closes): (r: State)
    ensures r.flags == Cleared(s.flags.isRunning)
    ensures r.out.writes == s.out.writes
    ensures s.out.closes <= r.out.closes
    ensures r.out.closes[|s.out.closes|..] <= OpenEndpoints(s.flags)
    ensures r.out.closes == s.out.closes + CloseInOrder(OpenEndpoints(s.flags), c).0
    ensures r.out.log == DebugLog.Append(
      ReportCloseError(s.out.log, CloseInOrder(OpenEndpoints(s.flags), c).1), DisconnectedMsg)
    ensures s.out.log <= r.out.log
  {
    var stopped := StopReading(s.flags);
    assert OpenEndpoints(stopped) == OpenEndpoints(s.flags);
    var closing := CloseInOrder(OpenEndpoints(stopped), c);
    var closes := s.out.closes + closing.0;
    assert closes[|s.out.closes|..] == closing.0;
    var log := DebugLog.Append(ReportCloseError(s.out.log, closing.1), DisconnectedMsg);
    State(Cleared(stopped.isRunning), Output(s.out.writes, closes, log))
  }

  /**
    `sendCommand`: with an output stream, exactly one write of the command's
    frame; a throwing write is reported and tears the link down. Without a
    stream nothing is written, yet the command is still logged as sent.
   */
  function SendCommand(s: State, cmd: Command, w: IoOutcome, c: Closes): (r: State)
    ensures s.flags.hasOutput ==> r.out.writes == s.out.writes + [Frame(cmd)]
    ensures !s.flags.hasOutput ==> r.out.writes == s.out.writes
    ensures !s.flags.hasOutput || w.Done? ==>
      && r.flags == s.flags
      && r.out.closes == s.out.closes
      && r.out.log == DebugLog.Append(s.out.log, SentPrefix + Token(cmd))
    ensures s.flags.hasOutput && w.Threw? ==>
      && r.flags == Cleared(s.flags.isRunning)
      && r.out.closes == s.out.closes + CloseInOrder(OpenEndpoints(s.flags), c).0
      && DebugLog.Append(s.out.log, SendErrorPrefix + w.message) <= r.out.log
    ensures s.out.log <= r.out.log
  {
    if !s.flags.hasOutput then Log(s, SentPrefix + Token(cmd))
    else
      var written := s.(out := s.out.(writes := s.out.writes + [Frame(cmd)]));
      match w
      case Done => Log(written, SentPrefix + Token(cmd))
      case Threw(m) => Disconnect(Log(written, SendErrorPrefix + m), c)
  }

  /** The command each movement button sends: one of the four movements, never a mode change. */
  function MoveCommand(b: MoveButton): (r: Command)
    ensures !r.Start? && !r.Stop?
  {
    match b
    case ForwardButton => Forward
    case BackwardButton => Backward
    case LeftButton => Left
    case RightButton => Right
  }

  /** A movement click: acts only while connected and running. */
  function MoveClick(s: State, b: MoveButton, w: IoOutcome, c: Closes): (r: State)
    ensures !(s.flags.isConnected && s.flags.isRunning) ==> r == s
    ensures s.flags.isConnected && s.flags.isRunning && s.flags.hasOutput ==>
      r.out.writes == s.out.writes + [Frame(MoveCommand(b))]
    ensures s.flags.isConnected && s.flags.isRunning && w.Done? ==> r.flags == s.flags
    ensures s.flags.isConnected && s.flags.isRunning && s.flags.hasOutput && w.Threw? ==>
      r.flags == Cleared(s.flags.isRunning)
  {
    if s.flags.isConnected && s.flags.isRunning then SendCommand(s, MoveCommand(b), w, c) else s
  }

  /** A start/stop click: when connected, toggles `isRunning` and sends the new mode. */
  function StartStopClick(s: State, w: IoOutcome, c: Closes): (r: State)
    ensures !s.flags.isConnected ==> r == s
    ensures s.flags.isConnected ==> r.flags.isRunning == !s.flags.isRunning
    ensures s.flags.isConnected && s.flags.hasOutput ==>
      r.out.writes == s.out.writes + [Frame(if s.flags.isRunning then Stop else Start)]
    ensures s.flags.isConnected && (w.Done? || !s.flags.hasOutput) ==>
      r.flags == s.flags.(isRunning := !s.flags.isRunning)
    ensures s.flags.isConnected && s.flags.hasOutput && w.Threw? ==>
      r.flags == Cleared(!s.flags.isRunning)
  {
    if s.flags.isConnected then
      var toggled := s.(flags := s.flags.(isRunning := !s.flags.isRunning));
      SendCommand(toggled, if toggled.flags.isRunning then Start else Stop, w, c)
    else s
  }

  /**
    The early exits of `connectToBluetooth`, checked in order, or the device to
    connect to: the first bonded device whose name contains the rover mark.
   */
  function Precheck(a: Adapter): (r: Result<Device, string>)
    ensures a.Absent? ==> r == Failure(NotSupportedMsg)
    ensures a.Present? && !a.enabled ==> r == Failure(NotEnabledMsg)
    ensures a.Present? && a.enabled && |a.bonded| == 0 ==> r == Failure(NoBondedMsg)
    ensures a.Present? && a.enabled && |a.bonded| > 0
      && (forall j :: 0 <= j < |a.bonded| ==> !Contains(a.bonded[j].name, RoverNameMark))
      ==> r == Failure(NoRoverMsg)
    ensures r.Success? <==>
      a.Present? && a.enabled && exists j :: 0 <= j < |a.bonded| && Contains(a.bonded[j].name, RoverNameMark)
    ensures r.Success? ==>
      exists i :: IsFirstMatch(a.bonded, RoverNameMark, i) && a.bonded[i] == r.value
  {
    match a
    case Absent => Failure(NotSupportedMsg)
    case Present(enabled, bonded) =>
      if !enabled then Failure(NotEnabledMsg)
      else if |bonded| == 0 then Failure(NoBondedMsg)
      else
        match FirstMatch(bonded, RoverNameMark)
        case None => Failure(NoRoverMsg)
        case Some(i) => Success(bonded[i])
  }

  /**
    The fields assigned before the step that threw: the socket once it was
    created, the output stream once it was taken; nothing else.
   */
  function PartlyOpened(f: Flags, d: Device, step: ConnectStep): (r: Flags)
    ensures step.CreateSocket? ==> r == f
    ensures !step.CreateSocket? ==> r.socket == Some(d)
    ensures step.GetInputStream? ==> r.hasOutput
    ensures !step.GetInputStream? ==> r.hasOutput == f.hasOutput
    ensures r.(socket := f.socket, hasOutput := f.hasOutput) == f
  {
    match step
    case CreateSocket => f
    case OpenSocket => f.(socket := Some(d))
    case GetOutputStream => f.(socket := Some(d))
    case GetInputStream => f.(socket := Some(d), hasOutput := true)
  }

  /** The successful end of `connectToBluetooth`: streams taken, reading started, controls enabled. */
  function OpenLink(s: State, d: Device): (r: State)
    ensures r.flags == Flags(Some(d), true, true, true, true, true, s.flags.isRunning, true)
    ensures r.out.writes == s.out.writes && r.out.closes == s.out.closes
    ensures r.out.log == DebugLog.Append(s.out.log, ConnectedMsg)
  {
    var streams := s.flags.(socket := Some(d), hasOutput := true, hasInput := true);
    var reading := StartReading(streams);
    Log(s.(flags := reading.(isConnected := true, controlsEnabled := true)), ConnectedMsg)
  }

  /** The `catch` of `connectToBluetooth`: the error is logged, then a full disconnect. */
  function AbortConnect(s: State, d: Device, step: ConnectStep, message: string, c: Closes): (r: State)
    ensures r.flags == Cleared(s.flags.isRunning)
    ensures r.out.writes == s.out.writes
    ensures r.out.closes == s.out.closes + CloseInOrder(OpenEndpoints(PartlyOpened(s.flags, d, step)), c).0
    ensures DebugLog.Append(s.out.log, ConnectErrorPrefix + message) <= r.out.log
    ensures s.out.log <= r.out.log
  {
    var partial := s.(flags := PartlyOpened(s.flags, d, step));
    Disconnect(Log(partial, ConnectErrorPrefix + message), c)
  }

  /**
    `connectToBluetooth`: an early exit only logs; a successful open sets up
    streams, reading and controls; a throwing step is logged and disconnects.
   */
  function ConnectToBluetooth(s: State, a: Adapter, o: ConnectOutcome, c: Closes): (r: State)
    ensures r.out.writes == s.out.writes
    ensures s.out.log <= r.out.log
    ensures Precheck(a).Failure? ==>
      && r.flags == s.flags
      && r.out.closes == s.out.closes
      && r.out.log == DebugLog.Append(s.out.log, Precheck(a).error)
    ensures Precheck(a).Success? && o.Opened? ==>
      r.flags == Flags(Some(Precheck(a).value), true, true, true, true, true, s.flags.isRunning, true)
    ensures Precheck(a).Success? && o.FailedAt? ==>
      && r.flags == Cleared(s.flags.isRunning)
      && r.out.closes == s.out.closes + CloseInOrder(OpenEndpoints(PartlyOpened(s.flags, Precheck(a).value, o.step)), c).0
      && DebugLog.Append(s.out.log, ConnectErrorPrefix + o.message) <= r.out.log
  {
    var checked := Precheck(a);
    if checked.Failure? then Log(s, checked.error)
    else if o.Opened? then OpenLink(s, checked.value)
    else AbortConnect(s, checked.value, o.step, o.message, c)
  }

  /**
    The connect button: disconnects when connected; otherwise connects, unless
    a permission is missing, in which case only the system prompt is shown.
   */
  function ConnectClick(s: State, permitted: bool, a: Adapter, o: ConnectOutcome, c: Closes): (r: State)
    ensures r.out.writes == s.out.writes
    ensures r.flags.isRunning == s.flags.isRunning
    ensures s.flags.isConnected ==> r.flags == Cleared(s.flags.isRunning)
    ensures s.flags.isConnected ==> r.out.closes == s.out.closes + CloseInOrder(OpenEndpoints(s.flags), c).0
    ensures !s.flags.isConnected && !permitted ==> r == s
    ensures !s.flags.isConnected && permitted && Precheck(a).Failure? ==>
      r.flags == s.flags && r.out.closes == s.out.closes
    ensures !s.flags.isConnected && permitted && Precheck(a).Success? && o.Opened? ==>
      r.flags == Flags(Some(Precheck(a).value), true, true, true, true, true, s.flags.isRunning, true)
    ensures !s.flags.isConnected && permitted && Precheck(a).Success? && o.FailedAt? ==>
      r.flags == Cleared(s.flags.isRunning) && DebugLog.Append(s.out.log, ConnectErrorPrefix + o.message) <= r.out.log
  {
    if !s.flags.isConnected then
      if permitted then ConnectToBluetooth(s, a, o, c) else s
    else Disconnect(s, c)
  }

  /** `onDestroy`: an unconditional disconnect. */
  function Destroy(s: State, c: Closes): (r: State)
    ensures r.flags == Cleared(s.flags.isRunning)
    ensures r.out.writes == s.out.writes
    ensures r.out.closes == s.out.closes + CloseInOrder(OpenEndpoints(s.flags), c).0
    ensures r.out.log == DebugLog.Append(
      ReportCloseError(s.out.log, CloseInOrder(OpenEndpoints(s.flags), c).1), DisconnectedMsg)
  {
    Disconnect(s, c)
  }
}

=== FILE: debug_log.dfy ===
/** The debug text view: messages joined by newlines, never rewritten. */
module DebugLog {

  const Separator: char := '\n'

  predicate NoNewline(s: string)
  {
    forall i :: 0 <= i < |s| ==> s[i] != Separator
  }

  /** The new text of the view after `addDebugMessage(message)`. */
  function Append(current: string, message: string): (r: string)
    ensures current <= r
    ensures current != [] ==> |current| < |r| && r[|current| + 1..] == message
    ensures current == [] ==> r == message
    ensures current != [] ==> |r| == |current| + 1 + |message| && r[|current|] == Separator
  {
    if current == [] then message else current + [Separator] + message
  }

  /** The view's text after the messages were added, in order, to an empty view. */
  function Render(messages: seq<string>): (r: string)
  {
    if |messages| == 0 then []
    else Append(Render(messages[..|messages| - 1]), messages[|messages| - 1])
  }

  /** Index of the first separator of `t`, or `|t|` when there is none. */
  function FirstSeparator(t: string): (k: nat)
    ensures k <= |t|
    ensures k < |t| ==> t[k] == Separator
    ensures forall i :: 0 <= i < k ==> t[i] != Separator
    decreases |t|
  {
    if |t| == 0 then 0
    else if t[0] == Separator then 0
    else 1 + FirstSeparator(t[1..])
  }

  /** Splitting on every separator, keeping empty pieces. */
  function Split(t: string): (r: seq<string>)
    decreases |t|
  {
    var k := FirstSeparator(t);
    if k == |t| then [t] else [t[..k]] + Split(t[k + 1..])
  }

  /** The lines of the view, an empty view having none. */
  function Lines(t: string): seq<string>
  {
    if t == [] then [] else Split(t)
  }

  lemma {:induction false} SplitNoSeparator(t: string)
    requires NoNewline(t)
    ensures Split(t) == [t]
  {
  }

  /** The first separator is the one position with no separator before it. */
  lemma FirstSeparatorAt(t: string, k: nat)
    requires k <= |t|
    requires k < |t| ==> t[k] == Separator
    requires forall i :: 0 <= i < k ==> t[i] != Separator
    ensures FirstSeparator(t) == k
  {
  }

  /** Adding a separator-free line to a text adds exactly that one piece. */
  lemma {:induction false} SplitExtend(t: string, m: string)
    requires NoNewline(m)
    ensures Split(t + [Separator] + m) == Split(t) + [m]
    decreases |t|
  {
    var u := t + [Separator] + m;
    var k := FirstSeparator(t);
    assert forall i :: 0 <= i < |t| ==> u[i] == t[i];
    assert u[|t|] == Separator;
    FirstSeparatorAt(u, k);
    assert u[..k] == t[..k];
    if k == |t| {
      assert t[..k] == t;
      assert u[k + 1..] == m;
      SplitNoSeparator(m);
      assert Split(u) == [t] + Split(m);
    } else {
      assert u[k + 1..] == t[k + 1..] + [Separator] + m;
      SplitExtend(t[k + 1..], m);
      assert Split(u) == [t[..k]] + Split(u[k + 1..]);
    }
  }

  /** Each addition keeps the earlier text as a prefix. */
  lemma {:induction false} RenderPrefix(messages: seq<string>, more: seq<string>)
    ensures Render(messages) <= Render(messages + more)
    decreases |more|
  {
    if |more| > 0 {
      var all := messages + more;
      var shorter := more[..|more| - 1];
      assert all[..|all| - 1] == messages + shorter;
      RenderPrefix(messages, shorter);
      RenderSnoc(all);
      PrefixTransitive(Render(messages), Render(messages + shorter), Render(all));
    } else {
      assert messages + more == messages;
    }
  }

  lemma PrefixTransitive(a: string, b: string, c: string)
    requires a <= b && b <= c
    ensures a <= c
  {
    assert c[..|a|] == c[..|b|][..|a|];
  }

  /** A view whose first message is not empty never shows empty text. */
  lemma {:induction false} RenderNonEmpty(messages: seq<string>)
    requires |messages| > 0 && messages[0] != []
    ensures Render(messages) != []
    decreases |messages|
  {
    var init := messages[..|messages| - 1];
    if |init| > 0 {
      RenderNonEmpty(init);
    }
  }

  /** Rendering one more message appends to the text of the earlier ones. */
  lemma RenderSnoc(messages: seq<string>)
    requires |messages| > 0
    ensures Render(messages) == Append(Render(messages[..|messages| - 1]), messages[|messages| - 1])
  {
  }

  /** One more separator-free message after a non-empty text adds exactly one line. */
  lemma LinesExtend(t: string, m: string)
    requires t != [] && NoNewline(m)
    ensures Lines(Append(t, m)) == Lines(t) + [m]
  {
    assert Append(t, m) == t + [Separator] + m;
    SplitExtend(t, m);
  }

  /**
    When no message holds a newline and the first is not empty, the view's
    lines are exactly the messages, in the order they were added.
   */
  lemma {:induction false} RenderLines(messages: seq<string>)
    requires forall i :: 0 <= i < |messages| ==> NoNewline(messages[i])
    requires |messages| > 0 ==> messages[0] != []
    ensures Lines(Render(messages)) == messages
    decreases |messages|
  {
    if |messages| == 1 {
      RenderSnoc(messages);
      SplitNoSeparator(messages[0]);
    } else if |messages| > 1 {
      var init := messages[..|messages| - 1];
      assert init[0] == messages[0];
      assert forall i :: 0 <= i < |init| ==> NoNewline(init[i]) by {
        forall i | 0 <= i < |init| ensures NoNewline(init[i]) {
          assert init[i] == messages[i];
        }
      }
      RenderLines(init);
      RenderLinesStep(messages);
    }
  }

  /** The inductive step of `RenderLines`: the last message becomes the last line. */
  lemma RenderLinesStep(messages: seq<string>)
    requires |messages| > 1
    requires NoNewline(messages[|messages| - 1])
    requires messages[0] != []
    requires Lines(Render(messages[..|messages| - 1])) == messages[..|messages| - 1]
    ensures Lines(Render(messages)) == messages
  {
    var init := messages[..|messages| - 1];
    var last := messages[|messages| - 1];
    assert init[0] == messages[0];
    RenderNonEmpty(init);
    LinesExtend(Render(init), last);
    RenderSnoc(messages);
    assert init + [last] == messages;
  }
}

=== FILE: pairing.dfy ===
/** Selecting the rover among the adapter's bonded devices. */
module Pairing {
  import opened Wrappers

  /** A previously bonded remote device, as the adapter reports it. */
  datatype Device = Device(name: string, address: string)

  /** The name fragment that identifies the rover's serial module. */
  const RoverNameMark: string := "MAVERA"

  /** `p` occurs in `s` starting at position `i`. */
  ghost predicate OccursAt(s: string, p: string, i: int)
  {
    0 <= i && i + |p| <= |s| && s[i..i + |p|] == p
  }

  /** Kotlin's `String.contains`: a case-sensitive substring test. */
  function Contains(s: string, p: string): (r: bool)
    ensures p <= s ==> r
    ensures r ==> |p| <= |s|
    decreases |s|
  {
    if |p| > |s| then false
    else if s[..|p|] == p then true
    else Contains(s[1..], p)
  }

  /** `Contains` holds exactly when the fragment occurs at some position. */
  lemma {:induction false} ContainsIff(s: string, p: string)
    ensures Contains(s, p) <==> exists i :: OccursAt(s, p, i)
    decreases |s|
  {
    if |p| > |s| {
      forall i ensures !OccursAt(s, p, i) {
      }
    } else if s[..|p|] == p {
      assert OccursAt(s, p, 0);
    } else {
      ContainsIff(s[1..], p);
      if Contains(s[1..], p) {
        var i :| OccursAt(s[1..], p, i);
        assert s[i + 1..i + 1 + |p|] == s[1..][i..i + |p|];
        assert OccursAt(s, p, i + 1);
      } else {
        forall i | OccursAt(s, p, i) ensures false {
          if i > 0 {
            assert s[1..][i - 1..i - 1 + |p|] == s[i..i + |p|];
            assert OccursAt(s[1..], p, i - 1);
          }
        }
      }
    }
  }

  /** Position `i` holds the first device whose name contains `p`. */
  ghost predicate IsFirstMatch(devices: seq<Device>, p: string, i: int)
  {
    && 0 <= i < |devices|
    && Contains(devices[i].name, p)
    && forall j :: 0 <= j < i ==> !Contains(devices[j].name, p)
  }

  /** `find` over the bonded devices, from position `from` on, in iteration order. */
  function FirstMatchFrom(devices: seq<Device>, p: string, from: nat): (r: Option<nat>)
    requires from <= |devices|
    requires forall j :: 0 <= j < from ==> !Contains(devices[j].name, p)
    ensures r.Some? ==> IsFirstMatch(devices, p, r.value)
    ensures r.None? <==> forall j :: 0 <= j < |devices| ==> !Contains(devices[j].name, p)
    decreases |devices| - from
  {
    if from == |devices| then None
    else if Contains(devices[from].name, p) then Some(from)
    else FirstMatchFrom(devices, p, from + 1)
  }

  /** The position `pairedDevices.find { it.name.contains(p) }` returns, if any. */
  function FirstMatch(devices: seq<Device>, p: string): (r: Option<nat>)
    ensures r.Some? ==> IsFirstMatch(devices, p, r.value)
    ensures r.None? <==> forall j :: 0 <= j < |devices| ==> !Contains(devices[j].name, p)
  {
    FirstMatchFrom(devices, p, 0)
  }

  /** The first match is unique: any position meeting the definition is the one found. */
  lemma FirstMatchUnique(devices: seq<Device>, p: string, i: int)
    requires IsFirstMatch(devices, p, i)
    ensures FirstMatch(devices, p) == Some(i)
  {
    assert FirstMatch(devices, p).Some?;
  }
}

=== FILE: session.dfy ===
/**
  The activity driven by a sequence of user and lifecycle events, and the
  properties that hold of every state reachable from creation.
 */
module Session {
  import opened Wrappers
  import opened Wire
  import DebugLog
  import opened Pairing
  import opened Controller

  /** One event handled on the UI thread, with the outcomes of the calls it makes. */
  datatype Event =
    | ConnectClicked(permitted: bool, adapter: Adapter, outcome: ConnectOutcome, closes: Closes)
    | StartStopClicked(write: IoOutcome, closes: Closes)
    | MoveClicked(button: MoveButton, write: IoOutcome, closes: Closes)
    | Destroyed(closes: Closes)

  function Step(s: State, e: Event): State
  {
    match e
    case ConnectClicked(permitted, a, o, c) => ConnectClick(s, permitted, a, o, c)
    case StartStopClicked(w, c) => StartStopClick(s, w, c)
    case MoveClicked(b, w, c) => MoveClick(s, b, w, c)
    case Destroyed(c) => Destroy(s, c)
  }

  function Run(s: State, events: seq<Event>): State
    decreases |events|
  {
    if |events| == 0 then s else Run(Step(s, events[0]), events[1..])
  }

  /**
    The fields move together: connected exactly when the socket, both streams,
    the reader thread, the reading flag and the enabled controls are all there.
   */
  predicate Consistent(f: Flags)
  {
    && f.socket.Some? == f.isConnected
    && f.hasOutput == f.isConnected
    && f.hasInput == f.isConnected
    && f.hasReadThread == f.isConnected
    && f.isReading == f.isConnected
    && f.controlsEnabled == f.isConnected
  }

  /** Every byte string written is a whole frame of some command. */
  predicate WellFramed(writes: seq<seq<byte>>)
  {
    forall i :: 0 <= i < |writes| ==> ParseFrame(writes[i]).Some?
  }

  lemma StepConsistent(s: State, e: Event)
    requires Consistent(s.flags)
    ensures Consistent(Step(s, e).flags)
  {
  }

  /** Whatever an event does, it writes nothing or one whole command frame. */
  lemma StepWritesFrames(s: State, e: Event)
    ensures Step(s, e).out.writes == s.out.writes
      || exists c :: Step(s, e).out.writes == s.out.writes + [Frame(c)]
  {
    match e
    case ConnectClicked(_, _, _, _) =>
    case Destroyed(_) =>
    case MoveClicked(b, _, _) =>
      if s.flags.isConnected && s.flags.isRunning && s.flags.hasOutput {
        assert Step(s, e).out.writes == s.out.writes + [Frame(MoveCommand(b))];
      }
    case StartStopClicked(_, _) =>
      if s.flags.isConnected && s.flags.hasOutput {
        var c := if s.flags.isRunning then Stop else Start;
        assert Step(s, e).out.writes == s.out.writes + [Frame(c)];
      }
  }

  /**
    From any consistent state, every run stays consistent, keeps all earlier
    output (writes, closes and log text) as a prefix, and writes only frames.
   */
  lemma {:induction false} RunInvariant(s: State, events: seq<Event>)
    requires Consistent(s.flags)
    requires WellFramed(s.out.writes)
    ensures Consistent(Run(s, events).flags)
    ensures WellFramed(Run(s, events).out.writes)
    ensures s.out.writes <= Run(s, events).out.writes
    ensures s.out.closes <= Run(s, events).out.closes
    ensures s.out.log <= Run(s, events).out.log
    decreases |events|
  {
    if |events| > 0 {
      var next := Step(s, events[0]);
      StepConsistent(s, events[0]);
      StepWritesFrames(s, events[0]);
      StepLogGrows(s, events[0]);
      StepClosesGrow(s, events[0]);
      if next.out.writes != s.out.writes {
        var c :| next.out.writes == s.out.writes + [Frame(c)];
        FrameRoundTrip(c, Frame(c));
        assert WellFramed(next.out.writes) by {
          forall i | 0 <= i < |next.out.writes|
            ensures ParseFrame(next.out.writes[i]).Some?
          {
            if i < |s.out.writes| {
              assert next.out.writes[i] == s.out.writes[i];
            }
          }
        }
      }
      RunInvariant(next, events[1..]);
    }
  }

  lemma StepClosesGrow(s: State, e: Event)
    ensures s.out.closes <= Step(s, e).out.closes
  {
  }

  lemma StepLogGrows(s: State, e: Event)
    ensures s.out.log <= Step(s, e).out.log
  {
  }

  /** Every state reachable from creation is consistent and has written only frames. */
  lemma Reachable(events: seq<Event>)
    ensures Consistent(Run(Initial, events).flags)
    ensures WellFramed(Run(Initial, events).out.writes)
  {
    RunInvariant(Initial, events);
  }

  /** While disconnected, no event writes anything. */
  lemma NoWriteWhileDisconnected(s: State, e: Event)
    requires !s.flags.isConnected
    ensures Step(s, e).out.writes == s.out.writes
  {
  }

  /** Only a start/stop click on a connected link changes `isRunning`; disconnects keep it. */
  lemma RunningChangesOnlyByStartStop(s: State, e: Event)
    ensures Step(s, e).flags.isRunning != s.flags.isRunning <==>
      e.StartStopClicked? && s.flags.isConnected
  {
  }

  /** A movement click on a connected, running link writes exactly the command's frame. */
  lemma ConnectedMoveWrites(s: State, b: MoveButton, w: IoOutcome, c: Closes)
    requires Consistent(s.flags) && s.flags.isConnected && s.flags.isRunning
    ensures Step(s, MoveClicked(b, w, c)).out.writes == s.out.writes + [Frame(MoveCommand(b))]
    ensures w.Done? ==> Step(s, MoveClicked(b, w, c)).flags == s.flags
  {
  }

  /** A throwing write on a connected link leaves it fully released, still running. */
  lemma WriteFailureDisconnects(s: State, e: Event)
    requires Consistent(s.flags) && s.flags.isConnected
    requires e.MoveClicked? || e.StartStopClicked?
    requires e.write.Threw?
    requires e.MoveClicked? ==> s.flags.isRunning
    ensures Step(s, e).flags == Cleared(Step(s, e).flags.isRunning)
    ensures !Step(s, e).flags.isConnected && Step(s, e).flags.socket.None?
    ensures !Step(s, e).flags.isReading && !Step(s, e).flags.controlsEnabled
  {
  }

  /**
    A second disconnect finds nothing to close: it leaves the fields as the
    first one left them, writes and closes nothing, and only logs the notice.
    The fields after a disconnect do not depend on how the closes went.
   */
  lemma DisconnectIdempotent(s: State, c1: Closes, c2: Closes)
    ensures Disconnect(Disconnect(s, c1), c2).flags == Disconnect(s, c1).flags
    ensures Disconnect(Disconnect(s, c1), c2).out.closes == Disconnect(s, c1).out.closes
    ensures Disconnect(Disconnect(s, c1), c2).out.writes == Disconnect(s, c1).out.writes
    ensures Disconnect(Disconnect(s, c1), c2).out.log
      == DebugLog.Append(Disconnect(s, c1).out.log, DisconnectedMsg)
    ensures Disconnect(s, c1).flags == Disconnect(s, c2).flags
  {
    var once := Disconnect(s, c1);
    assert OpenEndpoints(once.flags) == [];
    assert once.out.closes + [] == once.out.closes;
  }

  /** When no close throws, every open resource is closed, output stream first. */
  lemma QuietCloseClosesAll(s: State, c: Closes)
    requires c.output.Done? && c.input.Done? && c.socket.Done?
    ensures Disconnect(s, c).out.closes == s.out.closes + OpenEndpoints(s.flags)
    ensures Disconnect(s, c).out.log == DebugLog.Append(s.out.log, DisconnectedMsg)
  {
    QuietCloses(OpenEndpoints(s.flags), c);
  }

  /** With no throwing close, every pending resource is closed and nothing is reported. */
  lemma {:induction false} QuietCloses(pending: seq<Endpoint>, c: Closes)
    requires c.output.Done? && c.input.Done? && c.socket.Done?
    ensures CloseInOrder(pending, c) == (pending, None)
    decreases |pending|
  {
    if |pending| > 0 {
      QuietCloses(pending[1..], c);
      assert [pending[0]] + pending[1..] == pending;
    }
  }

  /**
    A throwing output-stream close skips the input-stream and socket closes,
    is reported, and the fields are still cleared.
   */
  lemma OutputCloseThrowSkipsRest(s: State, c: Closes)
    requires s.flags.hasOutput && c.output.Threw?
    ensures Disconnect(s, c).out.closes == s.out.closes + [OutputEnd]
    ensures Disconnect(s, c).out.log == DebugLog.Append(
      DebugLog.Append(s.out.log, CloseErrorPrefix + c.output.message), DisconnectedMsg)
    ensures Disconnect(s, c).flags == Cleared(s.flags.isRunning)
  {
    assert OpenEndpoints(StopReading(s.flags))[0] == OutputEnd;
  }

  /**
    From a released state, a connect whose socket `connect()` throws closes
    exactly the socket it created, whatever that close does. It logs the
    error, then the socket's close error if that close threw, then the notice.
   */
  lemma ConnectThrowClosesSocket(s: State, d: Device, message: string, c: Closes)
    requires Consistent(s.flags) && !s.flags.isConnected
    ensures
      var r := AbortConnect(s, d, OpenSocket, message, c);
      && r.out.closes == s.out.closes + [SocketEnd]
      && (c.socket.Done? ==>
        r.out.log == DebugLog.Append(DebugLog.Append(s.out.log, ConnectErrorPrefix + message), DisconnectedMsg))
      && (c.socket.Threw? ==>
        r.out.log == DebugLog.Append(DebugLog.Append(DebugLog.Append(s.out.log, ConnectErrorPrefix + message),
          CloseErrorPrefix + c.socket.message), DisconnectedMsg))
      && r.flags == Cleared(s.flags.isRunning)
  {
    var partial := PartlyOpened(s.flags, d, OpenSocket);
    assert OpenEndpoints(partial) == [SocketEnd];
    assert OpenEndpoints(StopReading(partial)) == [SocketEnd];
  }

  /**
    A permitted connect with the rover at bonded position `i` (the first whose
    name contains the mark) opens the link to that device.
   */
  lemma ConnectChoosesFirstRover(s: State, enabled: bool, bonded: seq<Device>, i: int, c: Closes)
    requires !s.flags.isConnected && enabled
    requires IsFirstMatch(bonded, RoverNameMark, i)
    ensures ConnectClick(s, true, Present(enabled, bonded), Opened, c).flags
      == Flags(Some(bonded[i]), true, true, true, true, true, s.flags.isRunning, true)
  {
    FirstMatchUnique(bonded, RoverNameMark, i);
  }

  /** A failed connect precondition changes no field and only logs why. */
  lemma FailedPrecheckOnlyLogs(s: State, a: Adapter, o: ConnectOutcome, c: Closes)
    requires !s.flags.isConnected
    requires Precheck(a).Failure?
    ensures ConnectClick(s, true, a, o, c).flags == s.flags
    ensures ConnectClick(s, true, a, o, c).out.closes == s.out.closes
    ensures ConnectClick(s, true, a, o, c).out.log == DebugLog.Append(s.out.log, Precheck(a).error)
  {
  }

  /** Running two events is running the first, then the second. */
  lemma RunTwo(s: State, e: Event, f: Event)
    ensures Run(s, [e, f]) == Step(Step(s, e), f)
  {
    var t := Step(Step(s, e), f);
    assert [f][1..] == [];
    assert Run(Step(s, e), [f]) == Run(t, []) == t;
    assert [e, f][1..] == [f];
    assert Run(s, [e, f]) == Run(Step(s, e), [f]);
  }

  /**
    Connect to "MAVERA-01", START, STOP, disconnect: the wire carries the
    START and STOP frames and the link ends released with the reader stopped.
   */
  lemma RoverScenario(c: Closes)
    ensures
      var rover := Device("MAVERA-01", "00:11:22:33:44:55");
      var ok := Closes(Done, Done, Done);
      var events := [
        ConnectClicked(true, Present(true, [rover]), Opened, ok),
        StartStopClicked(Done, ok),
        StartStopClicked(Done, ok),
        ConnectClicked(true, Present(true, [rover]), Opened, c)];
      var final := Run(Initial, events);
      && final.out.writes == [Frame(Start), Frame(Stop)]
      && final.flags == Cleared(false)
  {
    var rover := Device("MAVERA-01", "00:11:22:33:44:55");
    var ok := Closes(Done, Done, Done);
    var adapter := Present(true, [rover]);
    assert OccursAt(rover.name, RoverNameMark, 0);
    ContainsIff(rover.name, RoverNameMark);
    assert IsFirstMatch([rover], RoverNameMark, 0);
    ConnectChoosesFirstRover(Initial, true, [rover], 0, ok);
    var e0 := ConnectClicked(true, adapter, Opened, ok);
    var e1 := StartStopClicked(Done, ok);
    var e2 := StartStopClicked(Done, ok);
    var e3 := ConnectClicked(true, adapter, Opened, c);
    var s1 := Step(Initial, e0);
    assert s1.out.writes == [];
    var s2 := Step(s1, e1);
    assert s2.out.writes == [Frame(Start)];
    var s3 := Step(s2, e2);
    assert s3.out.writes == [Frame(Start), Frame(Stop)];
    assert s3.flags == s1.flags;
    var events := [e0, e1, e2, e3];
    assert events[1..][1..] == [e2, e3];
    RunTwo(s2, e2, e3);
  }
}

=== FILE: wire.dfy ===
/** The serial wire protocol: newline-terminated ASCII command tokens. */
module Wire {
  import opened Wrappers

  /** One octet written to the RFCOMM output stream. */
  newtype byte = x: int | 0 <= x < 256

  /** The delimiter appended to every command, `'\n'`. */
  const LineFeed: byte := 0x0A

  /** The six tokens `sendCommand` is called with. */
  datatype Command = Forward | Backward | Left | Right | Start | Stop

  function Token(c: Command): string
  {
    match c
    case Forward => "FORWARD"
    case Backward => "BACKWARD"
    case Left => "LEFT"
    case Right => "RIGHT"
    case Start => "START"
    case Stop => "STOP"
  }

  /** The inverse of `Token`. */
  function TokenOf(s: string): (r: Option<Command>)
  {
    if s == "FORWARD" then Some(Forward)
    else if s == "BACKWARD" then Some(Backward)
    else if s == "LEFT" then Some(Left)
    else if s == "RIGHT" then Some(Right)
    else if s == "START" then Some(Start)
    else if s == "STOP" then Some(Stop)
    else None
  }

  predicate IsAscii(s: string)
  {
    forall i :: 0 <= i < |s| ==> s[i] as int < 128
  }

  predicate AllAscii(b: seq<byte>)
  {
    forall i :: 0 <= i < |b| ==> b[i] < 128
  }

  /** UTF-8 encoding, which is the identity on code points for ASCII text. */
  function EncodeAscii(s: string): (b: seq<byte>)
    requires IsAscii(s)
    ensures |b| == |s|
    ensures forall i :: 0 <= i < |s| ==> b[i] as int == s[i] as int
  {
    seq(|s|, i requires 0 <= i < |s| => s[i] as int as byte)
  }

  function DecodeAscii(b: seq<byte>): (s: string)
    requires AllAscii(b)
    ensures |s| == |b|
    ensures forall i :: 0 <= i < |b| ==> s[i] as int == b[i] as int
  {
    seq(|b|, i requires 0 <= i < |b| => b[i] as int as char)
  }

  /** The bytes `sendCommand` hands to the output stream: the token, then one line feed. */
  function Frame(c: Command): (f: seq<byte>)
    ensures |f| == |Token(c)| + 1
    ensures f[|f| - 1] == LineFeed
    ensures forall i :: 0 <= i < |Token(c)| ==> f[i] as int == Token(c)[i] as int
  {
    TokenIsAscii(c);
    EncodeAscii(Token(c)) + [LineFeed]
  }

  /** The inverse of `Frame`. */
  function ParseFrame(b: seq<byte>): (r: Option<Command>)
  {
    if |b| == 0 || b[|b| - 1] != LineFeed || !AllAscii(b[..|b| - 1]) then None
    else TokenOf(DecodeAscii(b[..|b| - 1]))
  }

  lemma TokenIsAscii(c: Command)
    ensures IsAscii(Token(c))
    ensures forall i :: 0 <= i < |Token(c)| ==> Token(c)[i] != '\n'
  {
  }

  /** Distinct commands have distinct tokens, and the lookup inverts `Token`. */
  lemma TokenRoundTrip(c: Command, s: string)
    ensures TokenOf(Token(c)) == Some(c)
    ensures TokenOf(s) == Some(c) ==> s == Token(c)
  {
  }

  lemma AsciiRoundTrip(s: string, b: seq<byte>)
    ensures IsAscii(s) ==> AllAscii(EncodeAscii(s)) && DecodeAscii(EncodeAscii(s)) == s
    ensures AllAscii(b) ==> IsAscii(DecodeAscii(b)) && EncodeAscii(DecodeAscii(b)) == b
  {
  }

  /** Every frame carries exactly one line feed, and it is the last byte. */
  lemma FrameHasOneDelimiter(c: Command)
    ensures Frame(c)[|Frame(c)| - 1] == LineFeed
    ensures forall i :: 0 <= i < |Frame(c)| - 1 ==> Frame(c)[i] != LineFeed
  {
    TokenIsAscii(c);
  }

  /** As text, a frame is the command token followed by a single newline. */
  lemma FrameText(c: Command)
    ensures AllAscii(Frame(c))
    ensures DecodeAscii(Frame(c)) == Token(c) + "\n"
  {
    TokenIsAscii(c);
  }

  /** Parsing inverts framing, and only a frame parses as a command. */
  lemma FrameRoundTrip(c: Command, b: seq<byte>)
    ensures ParseFrame(Frame(c)) == Some(c)
    ensures ParseFrame(b) == Some(c) ==> b == Frame(c)
  {
    TokenIsAscii(c);
    var f := Frame(c);
    assert f[..|f| - 1] == EncodeAscii(Token(c));
    AsciiRoundTrip(Token(c), f[..|f| - 1]);
    TokenRoundTrip(c, Token(c));
    if ParseFrame(b) == Some(c) {
      var body := b[..|b| - 1];
      TokenRoundTrip(c, DecodeAscii(body));
      AsciiRoundTrip(Token(c), body);
      assert body == EncodeAscii(Token(c));
      assert b == body + [LineFeed];
    }
  }

  /** The START frame as the bytes 0x53 0x54 0x41 0x52 0x54 0x0A. */
  lemma StartFrameBytes()
    ensures Frame(Start) == [0x53, 0x54, 0x41, 0x52, 0x54, 0x0A]
  {
  }
}

=== FILE: wrappers.dfy ===
/** Option and Result, shared by the controller model. */
module Wrappers {

  /** A value that may be absent, in place of a nullable reference. */
  datatype Option<+T> = None | Some(value: T)

  /** Either a value or the reason it could not be produced. */
  datatype Result<+R, +E> = Success(value: R) | Failure(error: E)
}
